=== FILE: README.md ===
# Bambetto mini-games: a verified model of the game logic

This project models, in Dafny, the game logic of a small collection of browser
mini-games. It covers four pieces:

- the sequence-memory ("matrix") game engine (`js/matrix.js`);
- the round rules of the flag game: the four-flag choice, hangman, the
  written answer and the proximity guess (`js/flags.js`);
- the capitals quiz (`js/capitals.js`);
- the list of completed days shared by all games (`js/main.js`).

Each piece is a set of pure functions and methods over immutable records.
Every handler becomes a transition, and randomness is an input:

- The matrix game gets a real `u` in [0, 1) for `Math.random()`.
- The option samplers get the successive random dataset indices they draw.
- The sort with a random comparator gets the exchanges it performs.
- A delayed callback (`setTimeout`) is a separate transition that the host
  fires later. For example, the restart after a lost round is `Matrix.Init`,
  and the next batch after a won round is `Matrix.StartNextBatch`.

Modules: `Wrappers` (Option), `Text` (the JavaScript `trim`, `toLowerCase`,
`toUpperCase` and the NFD accent strip), `Countries` (the dataset record),
`Sampling` (the rejection sampler and shuffle shared by both quizzes),
`Matrix`, `Flags`, `Capitals` and `Days`.

Behaviours of the code worth knowing:

- After a failed sequence, `gameOver` re-initialises the game and re-arms the
  start button. It does not start a new batch by itself.
- `parseInt(x) || d` replaces only NaN and 0. A negative rounds setting is
  kept, and the board then shrinks as the level rises
  (`Matrix.NegativeRoundsShrinkBoard`); a negative start level is kept as well
  and gives an edge below 3 (`Matrix.NegativeLevelSmallBoard`).
  So the matrix invariants are stated for settings that read as at least 1.
- With three rounds per size, the 30x30 cap is first reached at level 82.
- The written-answer mode announces "+10 puntos" but changes no score.

## Model

| member | source | states |
|---|---|---|
| `Matrix.ReadSetting` | js/matrix.js:20-21 | only NaN and 0 fall back to the default; every other parsed value, negative ones included, is kept |
| `Matrix.CalculateMatrixSize` | js/matrix.js:46-50 | its own contract states only that the edge never exceeds 30; the block structure, range and monotonicity are the lemmas `SizeBlocks`, `SizeInRange` and `SizeMonotone` below |
| `Matrix.FloorDiv` | js/matrix.js:48 | `Math.floor(a / b)`: the quotient rounded down for divisors of either sign, stated by the bracketing inequalities |
| `Matrix.SizeBlocks` | js/matrix.js:46-50 | for rounds >= 1 an edge r < 30 is used for exactly the levels of block r - 3, and the edge is 30 exactly from level 27*rounds + 1 on |
| `Matrix.SizeInRange` | js/matrix.js:46-50 | for level, rounds >= 1 the edge lies in [3, 30], and levels 1..rounds use 3 |
| `Matrix.SizeMonotone` | js/matrix.js:46-50 | the edge is non-decreasing in the level for rounds >= 1 |
| `Matrix.DefaultProgression` | js/matrix.js:47-49 | with 3 rounds per size: levels 1-3 use 3x3, level 4 uses 4x4, level 81 uses 29, level 82 and beyond use 30 |
| `Matrix.NegativeRoundsShrinkBoard` | js/matrix.js:21-49 | a rounds setting of -1 survives the fallback, and the board then goes from 3 at level 1 to 2 at level 2 |
| `Matrix.NegativeLevelSmallBoard` | js/matrix.js:20-24 | a start level of -100 survives the fallback, and the edge is then -31 at level -100 and -30 at level -97 |
| `Matrix.CellFromRandom` | js/matrix.js:104-105 | `floor(random * cells)` is a cell of the board, or 0 for an empty board |
| `Matrix.EveryCellReachable` | js/matrix.js:104-105 | every cell of the board can be drawn |
| `Matrix.InitialInv` | js/matrix.js:2-11 | the page's starting record satisfies the engine invariant |
| `Matrix.Init` | js/matrix.js:13-29 | new game: settings read with the fallback, edge computed from the level and rounds read (whatever their sign), score 0, empty sequence, input closed, not displaying; with sane settings the invariant holds and the edge is in [3, 30]; earlier clicks are not cleared |
| `Matrix.SettingsChanged` | js/matrix.js:204-217 | settings take effect only while nothing is displayed and the sequence is empty, and then they re-initialise the game exactly as `Init` does (level, rounds per size and edge from the inputs, score 0); otherwise nothing changes |
| `Matrix.StartNextBatch` | js/matrix.js:95-111 | ignored while displaying; otherwise the sequence grows by exactly one on-board cell at its end, earlier entries untouched, clicks cleared, input closed, playback started, nothing else changed; keeps the invariant |
| `Matrix.FinishPlayback` | js/matrix.js:132-133 | playback ends and input opens, nothing else changes; from a displaying state the invariant is kept |
| `Matrix.GameOver` | js/matrix.js:180-181 | a lost round only closes input until the restart |
| `Matrix.Promote` | js/matrix.js:158-168 | round success: score + level*10, level + 1, input closed, edge recomputed for the new level, everything else kept |
| `Matrix.HandleCellClick` | js/matrix.js:141-177 | a click is ignored (no change) exactly when displaying, input closed, sequence empty or the cell not rendered; otherwise it is recorded and is a mismatch exactly when it is not the expected next cell, a win exactly when it is the expected last cell, and an accepted step otherwise, with the matching effect on score, level and input; a recorded click changes nothing besides the clicks, input, score, level and edge |
| `Matrix.ClickKeepsInv` | js/matrix.js:141-168 | a click never shrinks the board, and it keeps open input a proper prefix of the sequence and every stored cell on the board |
| `Matrix.PromoteKeepsInv` | js/matrix.js:158-168 | round success grows the board, so every earlier cell stays on it |
| `Matrix.AcceptKeepsInv` | js/matrix.js:147-158 | a correct intermediate click extends the repeated prefix by one |
| `Matrix.CorrectReplayWins` | js/matrix.js:141-168 | repeating the whole sequence in order after playback wins the round: same sequence, level + 1, score + old level*10, board not smaller |
| `Matrix.WrongClickRestarts` | js/matrix.js:151-192 | a wrong on-board cell is a mismatch that closes input, and the restart empties the sequence, zeroes the score and restores the configured level |
| `Matrix.StepKeepsInv` | js/matrix.js:95-217 | every user action and timer callback keeps the invariant, for restarts and setting edits whose settings read as at least 1 |
| `Matrix.RunKeepsInv` | js/matrix.js:95-217 | the invariant holds after any session of events |
| `Matrix.GameOnlyMovesForward` | js/matrix.js:95-177 | within one game the board never shrinks, level and score never fall, and the sequence only grows at its end |
| `Sampling.HasKey` | js/flags.js:100 | the `find` test is true exactly when some option already carries the key |
| `Sampling.DrawDistinct` | js/flags.js:96-101 | the rejection loop succeeds exactly when the correct entry and the draws hold four distinct keys, which needs four distinct keys in the pool; then the result is four key-distinct entries, the first the correct one, the rest from the pool |
| `Sampling.Shuffle` | js/flags.js:102 | the random-comparator sort returns a rearrangement: same length, same multiset |
| `Sampling.ShuffleKeepsDistinct` | js/flags.js:102 | rearranging never makes two options share a key |
| `Flags.GetRandomOptions` | js/flags.js:96-103 | four options with pairwise distinct codes, the current country among them, each from the dataset; produced exactly when the draws reach four distinct codes |
| `Flags.CheckFlagAnswer` | js/flags.js:105-116 | the page moves on exactly when the picked flag is the current country; a wrong pick keeps the question |
| `Flags.ExactlyOneRightFlag` | js/flags.js:47-52 | among key-distinct options containing the current country, exactly one button is right |
| `Flags.InitHangman` | js/flags.js:119-127 | the word is the upper-cased name; the mask has its length, shows exactly the spaces and hyphens, blanks the rest |
| `Flags.Reveal` | js/flags.js:153-161 | after a guess, exactly the positions whose accent-free character matches the letter show the word's character; all others are unchanged |
| `Flags.GuessLetter` | js/flags.js:148-176 | the loop computes the reveal; found exactly when some position matches; a miss changes nothing; won exactly when found and no blank remains; the mask invariant is kept |
| `Flags.RevealKeepsShown` | js/flags.js:156-161 | every mask entry stays a blank or the word's character, and shown characters never revert |
| `Flags.EnyeRevealsLikeN` | js/flags.js:135-157 | the 'N' and 'Ñ' keys reveal the same positions |
| `Flags.WonIffWordShown` | js/flags.js:123-167 | for a word without underscores, no blank remains exactly when the whole word is shown |
| `Flags.GuessAllShows` | js/flags.js:156-161 | after a list of guesses, each position already shown or matched by some guessed letter shows the word's character |
| `Flags.GuessAllWins` | js/flags.js:156-167 | guessing letters that cover every position (already shown, or matched accent-insensitively by some letter) shows the whole word |
| `Flags.OnKeyboard` | js/flags.js:135 | every capital A..Z has a key on the keyboard |
| `Flags.WholeKeyboardWins` | js/flags.js:119-167 | pressing every key reveals the whole word of any name made of spaces, hyphens and letters whose accent-free capital is A..Z; names with other characters are not covered: those without an upper-case form or decomposition that reaches A..Z (Æ, Ø, µ, punctuation) make a round that cannot be won in the code, while names with ß, ÿ or accented letters beyond Latin-1 can be won in the code but fall outside the model's Latin-1 tables |
| `Flags.CheckWriteAnswer` | js/flags.js:179-193 | right exactly when the trimmed input has the name's length and agrees with it letter by letter up to case |
| `Flags.WriteAcceptsPaddedName` | js/flags.js:181-185 | for a name without edge white space, the name with any white-space padding, in its own or upper case, is accepted |
| `Flags.WriteAcceptsCaseVariant` | js/flags.js:181-185 | any white-space padding of any text without edge white space whose lower-case form is the name's is accepted |
| `Flags.WriteTrimsAndFoldsCase` | js/flags.js:181-185 | "  chile  " is right for "Chile" |
| `Flags.WriteKeepsAccents` | js/flags.js:181-185 | "peru" is wrong for "Perú", because accents are not folded |
| `Flags.FindCountry` | js/flags.js:196-199 | the first entry whose lower-cased name equals the lower-cased trimmed input, or none exactly when no entry matches |
| `Flags.TierOf` | js/flags.js:215-219 | the five bands 0 / under 1500 / under 3500 / under 6000 / the rest, each given by its interval |
| `Flags.TierMonotone` | js/flags.js:215-219 | a farther guess never gets a closer band |
| `Flags.ColourOf` | js/flags.js:215-219 | each of the five border colours is chosen for exactly one band of distances |
| `Flags.HintOf` | js/flags.js:239-245 | each of the five hints is given for exactly one band of distances |
| `Flags.ColourAndHintAgree` | js/flags.js:215-245 | the colour chain and `getHint` put every distance in the same band, and colour and hint each identify the band |
| `Flags.CheckMapAnswer` | js/flags.js:196-236 | an unknown name records nothing; otherwise the guess, its distance and band are put first in the list, and the round ends exactly when the distance is 0 |
| `Flags.NamingTargetEndsRound` | js/flags.js:196-236 | typing the hidden country's own name ends the round, given it is the first entry with that name |
| `Text.Trim` | js/flags.js:181 | no white space is left at either end, and the result is not longer than the input |
| `Text.TrimCutsOnlyEdgeSpace` | js/flags.js:181 | trimming removes only white space, and only from the two ends: the result is the slice of the input between an all-white-space prefix and an all-white-space suffix |
| `Text.TrimStart` | js/flags.js:181 | a suffix of the input, with only white space removed and none left at its start |
| `Text.TrimEnd` | js/flags.js:181 | a prefix of the input, with only white space removed and none left at its end |
| `Text.TrimPadded` | js/flags.js:181 | trimming recovers exactly the text inside any white-space padding |
| `Text.TrimIdempotent` | js/flags.js:181 | trimming twice is trimming once |
| `Text.Lower` | js/flags.js:181-182 | same length, each character mapped by the Latin-1 lower-case mapping |
| `Text.Upper` | js/flags.js:120 | same length, each character mapped by the Latin-1 upper-case mapping |
| `Text.StripAccents` | js/flags.js:153 | at most one character remains; a combining mark vanishes and nothing else does; characters outside Latin-1 letters are kept; a changed character becomes a basic Latin letter |
| `Text.StripAccentsIdempotent` | js/flags.js:153 | stripping what remains changes nothing |
| `Text.LowerAfterUpper` | js/flags.js:120-182 | lower-casing forgets an earlier upper-casing |
| `Capitals.InitCapitalsGame` | js/capitals.js:11-14 | score back to 0 and a dataset country as the first question |
| `Capitals.NextCapitalQuestion` | js/capitals.js:16-19 | the question becomes a dataset country and the score is kept |
| `Capitals.GetCapitalOptions` | js/capitals.js:52-59 | four pairwise distinct capital names, the right one included, each some country's capital; produced exactly when the draws reach four distinct names |
| `Capitals.CheckCapitalAnswer` | js/capitals.js:61-72 | right exactly when the name equals the current capital; right adds exactly 1 and keeps the question, wrong changes nothing |
| `Capitals.SharedCapitalIsRight` | js/capitals.js:45 | another country's identical capital name is just as right |
| `Capitals.AnswersOnOneQuestion` | js/capitals.js:61-72 | while one question is shown the score never falls, rises at most one per click, and stays put exactly when no click names the capital |
| `Capitals.DoubleClickScoresTwice` | js/capitals.js:61-68 | two clicks on the right button before the next question score two points |
| `Days.MarkDayComplete` | js/main.js:30-36 | today is recorded; an existing entry leaves the list unchanged; otherwise today is appended after the untouched earlier entries; a duplicate-free list stays duplicate-free |
| `Days.MarkDayIdempotent` | js/main.js:34-36 | marking the same day twice equals marking it once |
| `Days.MarkAllRecordsEachDayOnce` | js/main.js:34-36 | after any number of completions the list holds exactly the days seen, each once, with earlier entries in place |

## Left out

- DOM rendering and styling. This covers `renderMatrix`, `renderFlagGame`,
  `renderCapitalGame`, `updateMatrixUI`, `toggleSettings`, `updateHangmanUI`,
  the mode buttons, button enabling, and `renderCapitalGame`'s coin flip,
  which decides only whether the flag is added next to the always shown
  country name. None of it affects the game state.
- Timing. The 800/600/200 ms playback waits, the post-answer delays and the
  `showNotification` animation are left out. Playback is one transition
  (`StartNextBatch`, then `FinishPlayback`), and each delayed callback is a
  transition the host fires.
- `calculateDistance`. It is floating-point haversine trigonometry, so the
  model takes the distance as a function parameter.
- Storage and dates in `js/main.js`. `localStorage`, JSON, the ISO date of
  today, `loadTheme` and `updateStreak` are I/O. Only the list update is kept.
- Real randomness and the fairness of the comparator shuffle. Only "some
  rearrangement" is modelled.
- Floating-point rounding of `Math.random() * n`, which is exact in the model.
- `nextFlagQuestion`, `setFlagMode` and `initFlagsGame`. They only pick a
  random entry and re-render; `NextCapitalQuestion` shows the same pick for
  the capitals game.
- The flag game's `score` and `attempts` fields. The code never updates them.
- Matrix settings elements that are missing from the page. In that case
  `initMatrixGame` keeps the old level or rounds; the model always reads the
  inputs.
- `Text.StripAccents`, `Text.Lower`, `Text.Upper`: they cover Basic Latin and
  Latin-1 only. Characters with special mappings (ß, ÿ, µ) and other scripts
  are left unchanged rather than mapped as full Unicode would.
- The `markDayComplete` call made on every win: js/matrix.js:171,
  js/flags.js:109, 169, 187 and 234, and js/capitals.js:67. The games'
  transitions do not record it. It happens where the matrix click is
  `RoundWon`, a flag pick is `Advance`, hangman reports `won`, the written
  answer is right, the proximity guess is `found`, and a capital answer is
  right. `Days.MarkDayComplete` models the update it makes.
- `Matrix.StepKeepsInv`: the invariant is stated only for restarts and setting
  edits whose settings read as at least 1. The source keeps negative
  settings, and the size bounds then fail.
- `Matrix.RunKeepsInv`: the invariant is stated only for restarts whose
  settings read as at least 1. The source keeps negative settings, and the
  size bounds then fail.
- `Flags.WholeKeyboardWins`: names containing ß (upper-cased to "SS"), ÿ
  (upper-cased to Ÿ, stripped to Y) or accented letters beyond Latin-1 (Š, Ő,
  which NFD reduces to A..Z) can be won in the code, but the model's Latin-1
  case and accent tables do not map them, so they fall outside `Spellable`.
- `Text.Trim`: its own contract states only that no edge white space remains
  and that the result is not longer; that only edge white space is removed is
  the lemma `TrimCutsOnlyEdgeSpace`, because stating it on `Trim` itself makes
  the proofs that evaluate `Trim` on string literals too slow.
- Number precision. The level, the score and both settings are exact
  integers in the model, while the source holds them in IEEE doubles: from
  2^53 on, `matrix.level++` and the score update lose precision (2^53 + 1 is
  not a double), and `parseInt` of a long enough digit string gives Infinity,
  which `Matrix.ReadSetting`'s `Option<int>` cannot represent.
- `Matrix.CalculateMatrixSize`: its own contract only bounds the edge by 30.
  The block structure, the range and the monotonicity are the lemmas
  `SizeBlocks`, `SizeInRange` and `SizeMonotone`.

=== FILE: capitals.dfy ===
/** The capitals quiz: a country is shown with four capitals to choose from;
    a right answer scores one point and moves on. */
module Capitals {
  import opened Wrappers
  import opened Countries
  import Sampling

  datatype CapitalGame = CapitalGame(score: int, current: Country)

  /** `nextCapitalQuestion`: the randomly picked entry becomes the question. */
  function NextCapitalQuestion(g: CapitalGame, data: seq<Country>, pick: nat): (r: CapitalGame)
    requires pick < |data|
    ensures r.current in data && r.score == g.score
  {
    g.(current := data[pick])
  }

  /** `initCapitalsGame`: score back to zero and a first question. */
  function InitCapitalsGame(data: seq<Country>, pick: nat): (r: CapitalGame)
    requires pick < |data|
    ensures r.score == 0 && r.current in data
  {
    CapitalGame(0, data[pick])
  }

  function Identity(s: string): string {
    s
  }

  /** `getCapitalOptions`: the right capital plus three other capital names,
      drawn with rejection and shuffled. `None` while the supplied draws have
      not yet produced four distinct names. */
  method GetCapitalOptions(data: seq<Country>, correct: string, draws: seq<nat>, swaps: seq<(nat, nat)>)
    returns (r: Option<seq<string>>)
    requires Sampling.ValidDraws(draws, |data|)
    requires Sampling.ValidSwaps(swaps, Sampling.OptionCount)
    ensures r.Some? <==>
              |Sampling.Keys([correct] + Sampling.Picks(CapitalsOf(data), draws), Identity)| >= Sampling.OptionCount
    ensures r.Some? ==> |Sampling.Keys([correct] + CapitalsOf(data), Identity)| >= Sampling.OptionCount
    ensures r.Some? ==> |r.value| == Sampling.OptionCount && correct in r.value
    ensures r.Some? ==> forall i, j :: 0 <= i < j < |r.value| ==> r.value[i] != r.value[j]
    ensures r.Some? ==> forall o :: o in r.value ==> o == correct || exists k :: 0 <= k < |data| && data[k].capital == o
  {
    var pool := CapitalsOf(data);
    var drawn := Sampling.DrawDistinct(pool, correct, Identity, draws);
    if drawn.None? {
      return None;
    }
    var opts := drawn.value;
    var shuffled := Sampling.Shuffle(opts, swaps);
    Sampling.ShuffleKeepsDistinct(opts, swaps, Identity);
    assert opts[0] in multiset(shuffled);
    forall o | o in shuffled
      ensures o == correct || exists k :: 0 <= k < |data| && data[k].capital == o
    {
      assert o in multiset(opts);
      var i :| 0 <= i < |opts| && opts[i] == o;
      if i > 0 {
        var k :| 0 <= k < |pool| && pool[k] == o;
        assert data[k].capital == o;
      }
    }
    assert forall i, j :: 0 <= i < j < |shuffled| ==> Identity(shuffled[i]) != Identity(shuffled[j]);
    r := Some(shuffled);
  }

  datatype Answer = Answer(game: CapitalGame, reaction: Reaction)

  /** `checkCapitalAnswer(opt === currentCountry.capital)`: a right answer
      scores exactly one point and moves on; a wrong one changes nothing. */
  function CheckCapitalAnswer(g: CapitalGame, picked: string): (r: Answer)
    ensures r.reaction == Advance <==> picked == g.current.capital
    ensures r.reaction == Advance ==> r.game.score == g.score + 1 && r.game.current == g.current
    ensures r.reaction == Stay ==> r.game == g
  {
    if picked == g.current.capital then Answer(g.(score := g.score + 1), Advance)
    else Answer(g, Stay)
  }

  /** The answer is judged by the name, so another country's identical
      capital is just as right. */
  lemma SharedCapitalIsRight(g: CapitalGame, other: Country)
    requires other.capital == g.current.capital
    ensures CheckCapitalAnswer(g, other.capital).reaction == Advance
  {
  }

  /** Answers given before the next question appears, one after another. */
  function AnswerAll(g: CapitalGame, picks: seq<string>): CapitalGame
    decreases |picks|
  {
    if picks == [] then g else AnswerAll(CheckCapitalAnswer(g, picks[0]).game, picks[1..])
  }

  /** While one question is shown, the score rises by at most one per click,
      never falls, and stays put exactly when no click names the capital.
      The right button stays enabled until the next question, so clicking it
      twice scores twice. */
  lemma {:induction false} AnswersOnOneQuestion(g: CapitalGame, picks: seq<string>)
    ensures AnswerAll(g, picks).current == g.current
    ensures g.score <= AnswerAll(g, picks).score <= g.score + |picks|
    ensures AnswerAll(g, picks).score == g.score <==>
              forall i :: 0 <= i < |picks| ==> picks[i] != g.current.capital
    decreases |picks|
  {
    if picks != [] {
      var n := CheckCapitalAnswer(g, picks[0]).game;
      AnswersOnOneQuestion(n, picks[1..]);
      if AnswerAll(g, picks).score == g.score {
        forall i | 0 <= i < |picks|
          ensures picks[i] != g.current.capital
        {
          if i > 0 {
            assert picks[i] == picks[1..][i - 1];
          }
        }
      } else {
        if picks[0] != g.current.capital {
          var j :| 0 <= j < |picks[1..]| && picks[1..][j] == g.current.capital;
          assert picks[j + 1] == g.current.capital;
        }
      }
    }
  }

  lemma DoubleClickScoresTwice(g: CapitalGame)
    ensures AnswerAll(g, [g.current.capital, g.current.capital]).score == g.score + 2
  {
    var c := g.current.capital;
    var once := CheckCapitalAnswer(g, c).game;
    assert [c, c][1..] == [c] && [c][1..] == [];
    assert AnswerAll(once, [c]) == AnswerAll(CheckCapitalAnswer(once, c).game, []);
  }
}

=== FILE: countries.dfy ===
/** The static reference dataset both quizzes draw from, and what a quiz page
    does after an answer. */
module Countries {

  /** After an answer the page either schedules the next question or keeps
      the current one on screen for another try. */
  datatype Reaction = Advance | Stay

  /** One dataset entry; `code` is the natural key (a flag-image region code).
      Latitude and longitude only feed the great-circle distance, which this
      model takes as an input. */
  datatype Country = Country(name: string, capital: string, code: string, lat: real, lon: real)

  /** The capital of every entry, in dataset order. */
  function CapitalsOf(data: seq<Country>): (r: seq<string>)
    ensures |r| == |data|
    ensures forall i :: 0 <= i < |data| ==> r[i] == data[i].capital
  {
    seq(|data|, i requires 0 <= i < |data| => data[i].capital)
  }
}

=== FILE: days.dfy ===
/** The shared "day completed" record: a list of date keys, each stored once. */
module Days {

  predicate NoDuplicates(days: seq<string>) {
    forall i, j :: 0 <= i < j < |days| ==> days[i] != days[j]
  }

  /** The list update of `markDayComplete`: today's key is appended unless it
      is already recorded. */
  function MarkDayComplete(completed: seq<string>, today: string): (r: seq<string>)
    ensures today in r
    ensures forall d :: d in r <==> d in completed || d == today
    ensures |completed| <= |r| <= |completed| + 1 && r[..|completed|] == completed
    ensures today in completed ==> r == completed
    ensures NoDuplicates(completed) ==> NoDuplicates(r)
  {
    if today in completed then completed else completed + [today]
  }

  /** Marking the same day twice is marking it once. */
  lemma MarkDayIdempotent(completed: seq<string>, today: string)
    ensures MarkDayComplete(MarkDayComplete(completed, today), today) == MarkDayComplete(completed, today)
  {
  }

  /** Marking several days, one call per completed game. */
  function MarkAll(completed: seq<string>, todays: seq<string>): seq<string>
    decreases |todays|
  {
    if todays == [] then completed else MarkAll(MarkDayComplete(completed, todays[0]), todays[1..])
  }

  /** However many games are completed, the record holds exactly the days
      seen, each once, and never loses or reorders an earlier entry. */
  lemma {:induction false} MarkAllRecordsEachDayOnce(completed: seq<string>, todays: seq<string>)
    requires NoDuplicates(completed)
    ensures NoDuplicates(MarkAll(completed, todays))
    ensures forall d :: d in MarkAll(completed, todays) <==> d in completed || d in todays
    ensures |MarkAll(completed, todays)| >= |completed|
    ensures MarkAll(completed, todays)[..|completed|] == completed
    decreases |todays|
  {
    if todays != [] {
      var next := MarkDayComplete(completed, todays[0]);
      MarkAllRecordsEachDayOnce(next, todays[1..]);
      var r := MarkAll(next, todays[1..]);
      assert r[..|completed|] == r[..|next|][..|completed|];
      forall d
        ensures d in r <==> d in completed || d in todays
      {
        assert d in todays <==> d == todays[0] || d in todays[1..];
      }
    }
  }
}

=== FILE: flags.dfy ===
/** The flag game's round rules: the four-flag choice, hangman on the country
    name, the written answer and the proximity guess. Distances come from the
    great-circle formula, which this model takes as a caller-supplied function. */
module Flags {
  import opened Wrappers
  import opened Text
  import opened Countries
  import Sampling

  function CodeOf(c: Country): string {
    c.code
  }

  // ---------------------------------------------------------------- choice

  /** `getRandomOptions`: the current country plus three entries with new
      codes, drawn with rejection and then shuffled. `None` while the supplied
      draws have not yet produced four distinct codes. */
  method GetRandomOptions(data: seq<Country>, correct: Country, draws: seq<nat>, swaps: seq<(nat, nat)>)
    returns (r: Option<seq<Country>>)
    requires Sampling.ValidDraws(draws, |data|)
    requires Sampling.ValidSwaps(swaps, Sampling.OptionCount)
    ensures r.Some? <==> |Sampling.Keys([correct] + Sampling.Picks(data, draws), CodeOf)| >= Sampling.OptionCount
    ensures r.Some? ==> |Sampling.Keys([correct] + data, CodeOf)| >= Sampling.OptionCount
    ensures r.Some? ==> |r.value| == Sampling.OptionCount && correct in r.value
    ensures r.Some? ==> Sampling.DistinctBy(r.value, CodeOf)
    ensures r.Some? ==> forall o :: o in r.value ==> o == correct || o in data
  {
    var drawn := Sampling.DrawDistinct(data, correct, CodeOf, draws);
    if drawn.None? {
      return None;
    }
    var opts := drawn.value;
    var shuffled := Sampling.Shuffle(opts, swaps);
    Sampling.ShuffleKeepsDistinct(opts, swaps, CodeOf);
    assert opts[0] in multiset(shuffled);
    assert forall o :: o in shuffled ==> o in multiset(opts);
    r := Some(shuffled);
  }

  /** `checkFlagAnswer(opt === currentCountry)`: a pick is right exactly when
      it is the current country, and only a right pick moves on. */
  function CheckFlagAnswer(picked: Country, current: Country): (r: Reaction)
    ensures r == Advance <==> picked == current
  {
    if picked == current then Advance else Stay
  }

  /** In a well-formed option list exactly one button is right. */
  lemma ExactlyOneRightFlag(opts: seq<Country>, current: Country)
    requires Sampling.DistinctBy(opts, CodeOf) && current in opts
    ensures |set i | 0 <= i < |opts| && CheckFlagAnswer(opts[i], current) == Advance| == 1
  {
    var k :| 0 <= k < |opts| && opts[k] == current;
    var right := set i | 0 <= i < |opts| && CheckFlagAnswer(opts[i], current) == Advance;
    forall i | i in right
      ensures i == k
    {
      if i < k || i > k {
        assert false;
      }
    }
    assert right == {k};
  }

  // --------------------------------------------------------------- hangman

  /** The on-screen keyboard, 'Ñ' included. */
  const Alphabet := "ABCDEFGHIJKLMNÑOPQRSTUVWXYZ"

  datatype Hangman = Hangman(word: string, hidden: string)

  /** Each shown entry is a blank or the word's own character. */
  predicate MaskInv(h: Hangman) {
    |h.hidden| == |h.word| && forall i :: 0 <= i < |h.word| ==> h.hidden[i] == '_' || h.hidden[i] == h.word[i]
  }

  predicate NoBlank(s: string) {
    forall i :: 0 <= i < |s| ==> s[i] != '_'
  }

  /** `initHangman`: the upper-cased name, shown with spaces and hyphens in
      place and every other character blanked. */
  function InitHangman(name: string): (h: Hangman)
    ensures |h.word| == |name| && h.word == Upper(name)
    ensures MaskInv(h)
    ensures forall i :: 0 <= i < |name| ==>
              (h.hidden[i] != '_' <==> name[i] == ' ' || name[i] == '-')
    ensures forall i :: 0 <= i < |name| && h.hidden[i] != '_' ==> h.hidden[i] == name[i]
  {
    var word := Upper(name);
    Hangman(word, seq(|word|, i requires 0 <= i < |word| =>
      if word[i] == ' ' then ' ' else if word[i] == '-' then '-' else '_'))
  }

  /** The accent-insensitive comparison of `guessLetter`. */
  predicate Matches(c: char, l: char) {
    StripAccents(c) == StripAccents(l)
  }

  /** The mask after guessing `l`: every position whose character matches
      shows that character (accent included), the rest is unchanged. */
  function Reveal(word: string, hidden: string, l: char): (r: string)
    requires |hidden| == |word|
    ensures |r| == |word|
    ensures forall i :: 0 <= i < |word| ==> r[i] == (if Matches(word[i], l) then word[i] else hidden[i])
    decreases |word|
  {
    if word == [] then []
    else
      var n := |word| - 1;
      Reveal(word[..n], hidden[..n], l) + [if Matches(word[n], l) then word[n] else hidden[n]]
  }

  /** `guessLetter`, following the source's loop over the word. */
  method GuessLetter(h: Hangman, l: char) returns (r: Hangman, found: bool, won: bool)
    requires MaskInv(h)
    ensures r.word == h.word && r.hidden == Reveal(h.word, h.hidden, l)
    ensures found <==> exists i :: 0 <= i < |h.word| && Matches(h.word[i], l)
    ensures !found ==> r == h
    ensures won <==> found && NoBlank(r.hidden)
    ensures MaskInv(r)
  {
    var hidden := h.hidden;
    found := false;
    var i := 0;
    while i < |h.word|
      invariant 0 <= i <= |h.word| && |hidden| == |h.word|
      invariant forall j :: 0 <= j < i ==>
                  hidden[j] == (if Matches(h.word[j], l) then h.word[j] else h.hidden[j])
      invariant forall j :: i <= j < |h.word| ==> hidden[j] == h.hidden[j]
      invariant found <==> exists j :: 0 <= j < i && Matches(h.word[j], l)
    {
      if Matches(h.word[i], l) {
        hidden := hidden[i := h.word[i]];
        found := true;
      }
      i := i + 1;
    }
    r := Hangman(h.word, hidden);
    won := found && !('_' in hidden);
  }

  /** A shown character is never blanked again. */
  lemma RevealKeepsShown(h: Hangman, l: char)
    requires MaskInv(h)
    ensures MaskInv(Hangman(h.word, Reveal(h.word, h.hidden, l)))
    ensures forall i :: 0 <= i < |h.word| && h.hidden[i] != '_' ==>
              Reveal(h.word, h.hidden, l)[i] == h.hidden[i]
  {
  }

  /** 'N' and 'Ñ' are the same key to the comparison. */
  lemma EnyeRevealsLikeN(word: string, hidden: string)
    requires |hidden| == |word|
    ensures Reveal(word, hidden, 'N') == Reveal(word, hidden, 'Ñ')
  {
  }

  /** The round is won exactly when the whole word is shown. */
  lemma WonIffWordShown(h: Hangman)
    requires MaskInv(h)
    requires NoBlank(h.word)
    ensures NoBlank(h.hidden) <==> h.hidden == h.word
  {
  }

  /** Guessing the letters one after the other. */
  function GuessAll(word: string, hidden: string, letters: string): (r: string)
    requires |hidden| == |word|
    ensures |r| == |word|
    decreases |letters|
  {
    if letters == [] then hidden
    else GuessAll(word, Reveal(word, hidden, letters[0]), letters[1..])
  }

  /** After a list of guesses, every position already shown or matched by one
      of the letters shows the word's character. */
  lemma {:induction false} GuessAllShows(word: string, hidden: string, letters: string, i: nat)
    requires |hidden| == |word| && i < |word|
    requires hidden[i] == word[i] || exists k :: 0 <= k < |letters| && Matches(word[i], letters[k])
    ensures GuessAll(word, hidden, letters)[i] == word[i]
    decreases |letters|
  {
    if letters != [] {
      var next := Reveal(word, hidden, letters[0]);
      if next[i] != word[i] {
        var k :| 0 <= k < |letters| && Matches(word[i], letters[k]);
        assert k != 0;
        assert letters[1..][k - 1] == letters[k];
      }
      GuessAllShows(word, next, letters[1..], i);
    }
  }

  /** Each character of the name is a space, a hyphen, or a letter whose
      accent-free form is a capital A..Z. */
  predicate Spellable(name: string) {
    forall i :: 0 <= i < |name| ==>
      name[i] == ' ' || name[i] == '-' ||
      (|StripAccents(UpperChar(name[i]))| == 1 && 'A' <= StripAccents(UpperChar(name[i]))[0] <= 'Z')
  }

  /** Every capital A..Z is on the keyboard. */
  lemma OnKeyboard(c: char)
    requires 'A' <= c <= 'Z'
    ensures exists k :: 0 <= k < |Alphabet| && Alphabet[k] == c
  {
    var k := if c <= 'N' then c as int - 'A' as int else c as int - 'A' as int + 1;
    assert Alphabet == seq(14, j requires 0 <= j < 14 => ('A' as int + j) as char) + "Ñ"
                       + seq(12, j requires 0 <= j < 12 => ('O' as int + j) as char);
    assert Alphabet[k] == c;
  }

  /** A character whose accent-free form is a capital A..Z has a key. */
  lemma KeyFor(c: char)
    requires |StripAccents(c)| == 1 && 'A' <= StripAccents(c)[0] <= 'Z'
    ensures exists k :: 0 <= k < |Alphabet| && Matches(c, Alphabet[k])
  {
    var b := StripAccents(c)[0];
    OnKeyboard(b);
    var k :| 0 <= k < |Alphabet| && Alphabet[k] == b;
    assert StripAccents(b) == [b];
  }

  /** Pressing every key of the keyboard wins any round whose name is
      spellable on it. */
  lemma WholeKeyboardWins(name: string)
    requires Spellable(name)
    ensures GuessAll(InitHangman(name).word, InitHangman(name).hidden, Alphabet) == InitHangman(name).word
  {
    var h := InitHangman(name);
    forall i | 0 <= i < |h.word|
      ensures Covered(h.word, h.hidden, Alphabet, i)
    {
      assert h.word[i] == UpperChar(name[i]);
      if name[i] != ' ' && name[i] != '-' {
        KeyFor(h.word[i]);
      }
    }
    GuessAllWins(h.word, h.hidden, Alphabet);
  }

  /** Position `i` is already shown or matched by one of the letters. */
  predicate Covered(word: string, hidden: string, letters: string, i: int)
    requires |hidden| == |word| && 0 <= i < |word|
  {
    hidden[i] == word[i] || exists k :: 0 <= k < |letters| && Matches(word[i], letters[k])
  }

  /** Guessing letters that cover every position shows the whole word. */
  lemma GuessAllWins(word: string, hidden: string, letters: string)
    requires |hidden| == |word|
    requires forall i :: 0 <= i < |word| ==> Covered(word, hidden, letters, i)
    ensures GuessAll(word, hidden, letters) == word
  {
    var r := GuessAll(word, hidden, letters);
    forall i | 0 <= i < |word|
      ensures r[i] == word[i]
    {
      assert Covered(word, hidden, letters, i);
      GuessAllShows(word, hidden, letters, i);
    }
  }

  // ----------------------------------------------------------------- write

  /** `checkWriteAnswer`: the trimmed input equals the name up to case;
      accents must be typed as in the name. */
  function CheckWriteAnswer(input: string, name: string): (correct: bool)
    ensures correct <==> |Trim(input)| == |name|
                         && forall i :: 0 <= i < |name| ==> LowerChar(Trim(input)[i]) == LowerChar(name[i])
  {
    Lower(Trim(input)) == Lower(name)
  }

  /** Any white-space padding and any upper-casing of the name is accepted. */
  lemma WriteAcceptsPaddedName(p: string, name: string, q: string)
    requires AllWhiteSpace(p) && AllWhiteSpace(q) && NoEdgeSpace(name)
    ensures CheckWriteAnswer(p + name + q, name)
    ensures CheckWriteAnswer(p + Upper(name) + q, name)
  {
    TrimPadded(p, name, q);
    assert NoEdgeSpace(Upper(name)) by {
      if name != [] {
        UpperKeepsWhiteSpace(name[0]);
        UpperKeepsWhiteSpace(name[|name| - 1]);
      }
    }
    TrimPadded(p, Upper(name), q);
    LowerAfterUpper(name);
  }

  /** "  chile  " is accepted for "Chile". */
  lemma WriteTrimsAndFoldsCase()
    ensures CheckWriteAnswer("  chile  ", "Chile")
  {
    var pad, typed := "  ", "chile";
    assert NoEdgeSpace(typed) by {
      assert !IsWhiteSpace('c') && !IsWhiteSpace('e');
    }
    assert Lower(typed) == Lower("Chile") by {
      assert LowerChar('C') == 'c';
      forall i | 0 <= i < 5
        ensures Lower(typed)[i] == Lower("Chile")[i]
      {
      }
    }
    WriteAcceptsCaseVariant(pad, typed, pad, "Chile");
    assert pad + typed + pad == "  chile  ";
  }

  /** Padding with white space and changing letter case never turn a right
      written answer into a wrong one. */
  lemma WriteAcceptsCaseVariant(p: string, typed: string, q: string, name: string)
    requires AllWhiteSpace(p) && AllWhiteSpace(q) && NoEdgeSpace(typed)
    requires Lower(typed) == Lower(name)
    ensures CheckWriteAnswer(p + typed + q, name)
  {
    TrimPadded(p, typed, q);
  }

  /** "peru" is refused for "Perú": accents are not folded. */
  lemma WriteKeepsAccents()
    ensures !CheckWriteAnswer("peru", "Perú")
  {
    assert NoEdgeSpace("peru") by {
      assert !IsWhiteSpace('p') && !IsWhiteSpace('u');
    }
    TrimPadded([], "peru", []);
    assert [] + "peru" + [] == "peru";
    assert Lower("peru")[3] != Lower("Perú")[3];
  }

  // ------------------------------------------------------------------- map

  /** The dataset entry `checkMapAnswer` looks up for a typed name. */
  predicate NameMatches(c: Country, input: string) {
    Lower(c.name) == Lower(Trim(input))
  }

  /** `countriesData.find(...)`: the index of the first entry whose name
      matches, or `None` when no entry does. */
  function FindCountry(data: seq<Country>, input: string): (r: Option<nat>)
    ensures r.Some? ==> r.value < |data| && NameMatches(data[r.value], input)
    ensures r.Some? ==> forall j :: 0 <= j < r.value ==> !NameMatches(data[j], input)
    ensures r.None? <==> forall j :: 0 <= j < |data| ==> !NameMatches(data[j], input)
  {
    FindFrom(data, Lower(Trim(input)), 0)
  }

  /** The first entry at or after `start` whose lower-cased name is `key`. */
  function FindFrom(data: seq<Country>, key: string, start: nat): (r: Option<nat>)
    requires start <= |data|
    ensures r.Some? ==> start <= r.value < |data| && Lower(data[r.value].name) == key
    ensures r.Some? ==> forall j :: start <= j < r.value ==> Lower(data[j].name) != key
    ensures r.None? <==> forall j :: start <= j < |data| ==> Lower(data[j].name) != key
    decreases |data| - start
  {
    if start == |data| then None
    else if Lower(data[start].name) == key then Some(start)
    else FindFrom(data, key, start + 1)
  }

  datatype Tier = Exact | VeryClose | Regional | Far | VeryFar

  /** The five feedback bands: zero, under 1500 km, under 3500 km, under
      6000 km, and everything else. */
  function TierOf(d: real): (t: Tier)
    ensures t == Exact <==> d == 0.0
    ensures t == VeryClose <==> d != 0.0 && d < 1500.0
    ensures t == Regional <==> 1500.0 <= d < 3500.0
    ensures t == Far <==> 3500.0 <= d < 6000.0
    ensures t == VeryFar <==> d >= 6000.0
  {
    if d == 0.0 then Exact
    else if d < 1500.0 then VeryClose
    else if d < 3500.0 then Regional
    else if d < 6000.0 then Far
    else VeryFar
  }

  function Rank(t: Tier): nat {
    match t
    case Exact => 0
    case VeryClose => 1
    case Regional => 2
    case Far => 3
    case VeryFar => 4
  }

  /** A farther guess never gets a closer band. */
  lemma TierMonotone(d1: real, d2: real)
    requires 0.0 <= d1 <= d2
    ensures Rank(TierOf(d1)) <= Rank(TierOf(d2))
  {
  }

  /** The border colour of a feedback entry: each colour is shown for exactly
      one band of distances. */
  function ColourOf(d: real): (r: string)
    ensures r == "#10b981" <==> d == 0.0
    ensures r == "#4ade80" <==> d != 0.0 && d < 1500.0
    ensures r == "#facc15" <==> 1500.0 <= d < 3500.0
    ensures r == "#f97316" <==> 3500.0 <= d < 6000.0
    ensures r == "#7f1d1d" <==> d >= 6000.0
  {
    if d == 0.0 then "#10b981"
    else if d < 1500.0 then "#4ade80"
    else if d < 3500.0 then "#facc15"
    else if d < 6000.0 then "#f97316"
    else "#7f1d1d"
  }

  /** `getHint`: each hint is given for exactly one band of distances. */
  function HintOf(d: real): (r: string)
    ensures r == "¡Exacto!" <==> d == 0.0
    ensures r == "¡Muy cerca!" <==> d != 0.0 && d < 1500.0
    ensures r == "En la región..." <==> 1500.0 <= d < 3500.0
    ensures r == "Bastante lejos" <==> 3500.0 <= d < 6000.0
    ensures r == "En la otra punta del mundo" <==> d >= 6000.0
  {
    if d == 0.0 then "¡Exacto!"
    else if d < 1500.0 then "¡Muy cerca!"
    else if d < 3500.0 then "En la región..."
    else if d < 6000.0 then "Bastante lejos"
    else "En la otra punta del mundo"
  }

  function TierColour(t: Tier): string {
    match t
    case Exact => "#10b981"
    case VeryClose => "#4ade80"
    case Regional => "#facc15"
    case Far => "#f97316"
    case VeryFar => "#7f1d1d"
  }

  function TierHint(t: Tier): string {
    match t
    case Exact => "¡Exacto!"
    case VeryClose => "¡Muy cerca!"
    case Regional => "En la región..."
    case Far => "Bastante lejos"
    case VeryFar => "En la otra punta del mundo"
  }

  /** The colour chain and `getHint` classify every distance into the same
      band, and each band has its own colour and its own hint. */
  lemma ColourAndHintAgree(d: real)
    ensures ColourOf(d) == TierColour(TierOf(d))
    ensures HintOf(d) == TierHint(TierOf(d))
    ensures forall t: Tier :: TierColour(t) == ColourOf(d) ==> t == TierOf(d)
    ensures forall t: Tier :: TierHint(t) == HintOf(d) ==> t == TierOf(d)
  {
  }

  datatype Proximity = Proximity(guess: Country, distance: real, tier: Tier)

  datatype MapOutcome =
    | NotInList                                      // notified, nothing recorded
    | Placed(history: seq<Proximity>, found: bool)   // newest entry first

  /** `checkMapAnswer`: look the typed name up; if it is a country, prepend
      its distance and band to the feedback list, and end the round exactly
      when the distance is zero. `distance(a, b)` is the great-circle
      distance from `a` to `b`. */
  function CheckMapAnswer(data: seq<Country>, target: Country, input: string,
                          history: seq<Proximity>, distance: (Country, Country) -> real): (r: MapOutcome)
    ensures r.NotInList? <==> forall j :: 0 <= j < |data| ==> !NameMatches(data[j], input)
    ensures r.Placed? ==>
              && FindCountry(data, input).Some?
              && var g := data[FindCountry(data, input).value];
                 && |r.history| == |history| + 1 && r.history[1..] == history
                 && r.history[0].guess == g && r.history[0].distance == distance(g, target)
                 && r.history[0].tier == TierOf(distance(g, target))
                 && (r.found <==> distance(g, target) == 0.0)
  {
    match FindCountry(data, input)
    case None => NotInList
    case Some(k) =>
      var d := distance(data[k], target);
      Placed([Proximity(data[k], d, TierOf(d))] + history, d == 0.0)
  }

  /** Typing the hidden country's own name ends the round, provided it is the
      first entry with that name and the distance of a place to itself is 0. */
  lemma NamingTargetEndsRound(data: seq<Country>, k: nat, history: seq<Proximity>,
                              distance: (Country, Country) -> real)
    requires k < |data|
    requires forall j :: 0 <= j < k ==> Lower(data[j].name) != Lower(data[k].name)
    requires NoEdgeSpace(data[k].name)
    requires distance(data[k], data[k]) == 0.0
    ensures var r := CheckMapAnswer(data, data[k], data[k].name, history, distance);
            r.Placed? && r.found && r.history[0].tier == Exact
  {
    var name := data[k].name;
    assert [] + name + [] == name;
    TrimPadded([], name, []);
    assert NameMatches(data[k], name);
  }
}

=== FILE: matrix.dfy ===
/** The sequence-memory ("matrix") game: a growing sequence of board cells is
    played back, the player repeats it by clicking cells, a full correct repeat
    raises the level (and, every `roundsPerSize` levels, the board edge) and a
    wrong click restarts the game from the configured settings.

    Every handler is a pure transition on the game record. The timed parts of
    the source become separate transitions: the playback coroutine is
    `StartNextBatch` (its synchronous start) followed by `FinishPlayback` (its
    end), and the delayed callbacks after a won or lost round are the
    `StartNextBatch` and `Init` calls the host makes when they fire. */
module Matrix {
  import opened Wrappers

  const MaxSize := 30
  const BaseSize := 3
  const DefaultLevel := 1
  const DefaultRounds := 3

  datatype Game = Game(
    size: int,                 // board edge: the board has size * size cells
    sequence: seq<int>,        // cells to repeat, oldest first
    playerSequence: seq<int>,  // cells clicked so far in this round
    isDisplaying: bool,        // playback in progress
    canClick: bool,            // input open
    score: int,
    level: int,
    roundsPerSize: int)        // levels played on each board size

  /** The record the page starts from, before the first initialisation. */
  const Initial := Game(3, [], [], false, false, 0, 1, 3)

  /** `parseInt(text) || fallback`, with `None` for NaN: only NaN and zero
      are replaced; any other value, negative ones included, is kept. */
  function ReadSetting(parsed: Option<int>, fallback: int): (v: int)
    ensures parsed.Some? && parsed.value != 0 ==> v == parsed.value
    ensures parsed == None || parsed == Some(0) ==> v == fallback
  {
    match parsed
    case Some(n) => if n != 0 then n else fallback
    case None => fallback
  }

  /** `Math.floor(a / b)` for integers: JavaScript divides in floating point
      and then rounds down, which is the integer floor for operands of
      ordinary size; Dafny's `/` is Euclidean, so a negative divisor is
      handled by negating both operands. */
  function FloorDiv(a: int, b: int): (q: int)
    requires b != 0
    ensures b > 0 ==> q * b <= a < q * b + b
    ensures b < 0 ==> q * b >= a > q * b + b
  {
    if b > 0 then a / b else (-a) / (-b)
  }

  /** Board edge for a level: `BaseSize` for the first `rounds` levels, one
      more for each further block of `rounds` levels, never above `MaxSize`.
      `SizeBlocks` states the block structure. */
  function CalculateMatrixSize(level: int, rounds: int): (r: int)
    requires rounds != 0
    ensures r <= MaxSize
  {
    var extra := FloorDiv(level - 1, rounds);
    if BaseSize + extra < MaxSize then BaseSize + extra else MaxSize
  }

  /** With a positive rounds setting the edge is 30 exactly from level
      27 * rounds + 1 on, and below that an edge `r` is used for exactly the
      levels of block `r - 3`. */
  lemma SizeBlocks(level: int, rounds: int)
    requires rounds > 0
    ensures var r := CalculateMatrixSize(level, rounds);
            && (r == MaxSize <==> (MaxSize - BaseSize) * rounds <= level - 1)
            && (r < MaxSize ==> (r - BaseSize) * rounds <= level - 1 < (r - BaseSize + 1) * rounds)
  {
    var extra := FloorDiv(level - 1, rounds);
    BlockThreshold(extra, rounds, level - 1, MaxSize - BaseSize);
  }

  /** For the quotient `q` of `a` by a positive `rounds`: `q` reaches `m`
      exactly when `a` reaches `m` whole blocks. */
  lemma BlockThreshold(q: int, rounds: int, a: int, m: int)
    requires rounds > 0 ==> q * rounds <= a < q * rounds + rounds
    ensures rounds > 0 ==> (q >= m <==> m * rounds <= a)
  {
    if rounds > 0 {
      if q >= m {
        MulMono(m, q, rounds);
      } else {
        MulMono(q + 1, m, rounds);
      }
    }
  }

  lemma MulMono(a: int, b: int, c: int)
    requires a <= b && c >= 0
    ensures a * c <= b * c
  {
  }

  /** With sensible settings the board edge lies in [3, 30], and the first
      `rounds` levels are played on the smallest board. */
  lemma SizeInRange(level: int, rounds: int)
    requires level >= 1 && rounds >= 1
    ensures BaseSize <= CalculateMatrixSize(level, rounds) <= MaxSize
    ensures level <= rounds ==> CalculateMatrixSize(level, rounds) == BaseSize
  {
    var r := CalculateMatrixSize(level, rounds);
    SizeBlocks(level, rounds);
    if r < BaseSize {
      MulMono(r - BaseSize + 1, 0, rounds);
    }
    if level <= rounds && r > BaseSize {
      MulMono(1, r - BaseSize, rounds);
    }
  }

  /** The board never gets smaller as the level rises. */
  lemma SizeMonotone(level1: int, level2: int, rounds: int)
    requires rounds >= 1 && level1 <= level2
    ensures CalculateMatrixSize(level1, rounds) <= CalculateMatrixSize(level2, rounds)
  {
    var r1, r2 := CalculateMatrixSize(level1, rounds), CalculateMatrixSize(level2, rounds);
    SizeBlocks(level1, rounds);
    SizeBlocks(level2, rounds);
    if r1 > r2 {
      MulMono(r2 - BaseSize + 1, r1 - BaseSize, rounds);
    }
  }

  /** The default progression: levels 1..3 on 3x3, level 4 on 4x4, and the
      cap of 30x30 first reached at level 82. */
  lemma DefaultProgression()
    ensures CalculateMatrixSize(1, DefaultRounds) == 3
    ensures CalculateMatrixSize(3, DefaultRounds) == 3
    ensures CalculateMatrixSize(4, DefaultRounds) == 4
    ensures CalculateMatrixSize(81, DefaultRounds) == 29
    ensures CalculateMatrixSize(82, DefaultRounds) == 30
    ensures CalculateMatrixSize(1000, DefaultRounds) == 30
  {
  }

  /** A negative rounds setting survives the `|| 3` fallback, and with it the
      board shrinks as the level rises: monotonicity needs rounds >= 1. */
  lemma NegativeRoundsShrinkBoard()
    ensures ReadSetting(Some(-1), DefaultRounds) == -1
    ensures CalculateMatrixSize(1, -1) == 3 && CalculateMatrixSize(2, -1) == 2
  {
  }

  /** A negative start level also survives the `|| 1` fallback, and with it
      the edge starts below 3 (and below zero) and grows with the level. */
  lemma NegativeLevelSmallBoard()
    ensures ReadSetting(Some(-100), DefaultLevel) == -100
    ensures CalculateMatrixSize(-100, DefaultRounds) == -31
    ensures CalculateMatrixSize(-97, DefaultRounds) == -30
  {
  }

  /** `Math.floor(u * cells)` for a random `u` in [0, 1): a cell of the board,
      or 0 when the board has no cells. */
  function CellFromRandom(u: real, cells: int): (c: int)
    requires 0.0 <= u < 1.0 && cells >= 0
    ensures cells > 0 ==> 0 <= c < cells
    ensures cells == 0 ==> c == 0
  {
    ScaledFloor(u, cells);
    (u * cells as real).Floor
  }

  lemma ScaledFloor(u: real, n: int)
    requires 0.0 <= u < 1.0 && n >= 0
    ensures n > 0 ==> 0 <= (u * n as real).Floor < n
    ensures n == 0 ==> (u * n as real).Floor == 0
  {
    if n > 0 {
      ProductBelow(u, n as real);
    }
  }

  lemma ProductBelow(u: real, y: real)
    requires 0.0 <= u < 1.0 && y > 0.0
    ensures 0.0 <= u * y < y
  {
    assert y - u * y == (1.0 - u) * y;
  }

  /** Every cell can be drawn. */
  lemma EveryCellReachable(c: int, cells: int)
    requires 0 <= c < cells
    ensures CellFromRandom(c as real / cells as real, cells) == c
  {
    assert (c as real / cells as real) * cells as real == c as real;
  }

  /** Settings the invariant is stated for: neither read value is negative. */
  predicate SaneSettings(levelInput: Option<int>, roundsInput: Option<int>) {
    ReadSetting(levelInput, DefaultLevel) >= 1 && ReadSetting(roundsInput, DefaultRounds) >= 1
  }

  /** What holds of every reachable record (for sane settings): the size
      matches the level, every stored cell is on the board, playback happens
      on a fresh round, and open input has repeated a proper prefix. */
  predicate Inv(g: Game) {
    && g.level >= 1 && g.roundsPerSize >= 1 && g.score >= 0
    && g.size == CalculateMatrixSize(g.level, g.roundsPerSize)
    && (forall i :: 0 <= i < |g.sequence| ==> 0 <= g.sequence[i] < g.size * g.size)
    && (g.isDisplaying ==> !g.canClick && g.playerSequence == [] && |g.sequence| >= 1)
    && (g.canClick ==> |g.playerSequence| < |g.sequence|
                       && g.playerSequence == g.sequence[..|g.playerSequence|])
  }

  lemma InitialInv()
    ensures Inv(Initial)
  {
  }

  /** `initMatrixGame`: reads the settings, recomputes the board and starts a
      new game with an empty sequence and no score. The player's clicks of the
      previous round are not cleared; the next batch clears them. */
  function Init(g: Game, levelInput: Option<int>, roundsInput: Option<int>): (r: Game)
    ensures r.level == ReadSetting(levelInput, DefaultLevel)
    ensures r.roundsPerSize == ReadSetting(roundsInput, DefaultRounds)
    ensures r.score == 0 && r.sequence == [] && !r.isDisplaying && !r.canClick
    ensures r.playerSequence == g.playerSequence
    ensures r.size == CalculateMatrixSize(r.level, r.roundsPerSize)
    ensures SaneSettings(levelInput, roundsInput) ==>
              Inv(r) && BaseSize <= r.size <= MaxSize
  {
    var level := ReadSetting(levelInput, DefaultLevel);
    var rounds := ReadSetting(roundsInput, DefaultRounds);
    var r := g.(level := level, roundsPerSize := rounds,
                size := CalculateMatrixSize(level, rounds),
                score := 0, sequence := [], isDisplaying := false, canClick := false);
    if level >= 1 && rounds >= 1 then SizeInRange(level, rounds); r else r
  }

  /** The settings inputs' change handler: the new settings take effect only
      while no game is under way (nothing displayed, nothing in the sequence). */
  function SettingsChanged(g: Game, levelInput: Option<int>, roundsInput: Option<int>): (r: Game)
    ensures g.isDisplaying || |g.sequence| > 0 ==> r == g
    ensures !g.isDisplaying && |g.sequence| == 0 ==> r == Init(g, levelInput, roundsInput)
    ensures !g.isDisplaying && |g.sequence| == 0 ==>
              && r.level == ReadSetting(levelInput, DefaultLevel)
              && r.roundsPerSize == ReadSetting(roundsInput, DefaultRounds)
              && r.size == CalculateMatrixSize(r.level, r.roundsPerSize) && r.score == 0
    ensures Inv(g) && SaneSettings(levelInput, roundsInput) ==> Inv(r)
  {
    if !g.isDisplaying && |g.sequence| == 0 then Init(g, levelInput, roundsInput) else g
  }

  /** `startNextBatch` together with the synchronous start of `playSequence`:
      ignored during playback; otherwise clears the round's clicks, closes
      input, appends one random cell and starts displaying. */
  function StartNextBatch(g: Game, u: real): (r: Game)
    requires 0.0 <= u < 1.0
    ensures g.isDisplaying ==> r == g
    ensures !g.isDisplaying ==>
              && |r.sequence| == |g.sequence| + 1 && r.sequence[..|g.sequence|] == g.sequence
              && (g.size != 0 ==> 0 <= r.sequence[|g.sequence|] < g.size * g.size)
              && r.playerSequence == [] && !r.canClick && r.isDisplaying
              && r.(sequence := g.sequence, playerSequence := g.playerSequence,
                    canClick := g.canClick, isDisplaying := g.isDisplaying) == g
    ensures Inv(g) ==> Inv(r)
  {
    if g.isDisplaying then g
    else
      var cell := CellFromRandom(u, g.size * g.size);
      var r := g.(playerSequence := [], canClick := false,
                  sequence := g.sequence + [cell], isDisplaying := true);
      assert r.sequence[..|g.sequence|] == g.sequence;
      r
  }

  /** The end of `playSequence`: playback over, input open, nothing else changes. */
  function FinishPlayback(g: Game): (r: Game)
    ensures !r.isDisplaying && r.canClick
    ensures r.(isDisplaying := g.isDisplaying, canClick := g.canClick) == g
    ensures Inv(g) && g.isDisplaying ==> Inv(r)
  {
    g.(isDisplaying := false, canClick := true)
  }

  /** `gameOver`: closes input; the host initialises a new game a second later. */
  function GameOver(g: Game): (r: Game)
    ensures !r.canClick && r.(canClick := g.canClick) == g
  {
    g.(canClick := false)
  }

  /** The round-success update: level points scored, level up, input closed,
      board size recomputed for the new level. */
  function Promote(g: Game): (r: Game)
    requires g.roundsPerSize != 0
    ensures r.score == g.score + g.level * 10 && r.level == g.level + 1 && !r.canClick
    ensures r.size == CalculateMatrixSize(g.level + 1, g.roundsPerSize)
    ensures r.(score := g.score, level := g.level, canClick := g.canClick, size := g.size) == g
  {
    var level := g.level + 1;
    g.(score := g.score + g.level * 10, level := level, canClick := false,
       size := CalculateMatrixSize(level, g.roundsPerSize))
  }

  datatype Outcome = Ignored | Accepted | Mismatch | RoundWon

  datatype Click = Click(game: Game, outcome: Outcome)

  /** The handler can act: not displaying, input open, something to repeat. */
  predicate AcceptsInput(g: Game) {
    !g.isDisplaying && g.canClick && |g.sequence| > 0
  }

  /** Whether `index` names a rendered cell. */
  predicate OnBoard(g: Game, index: int) {
    0 <= index < g.size * g.size
  }

  /** Whether `index` is the cell expected next. */
  predicate Expected(g: Game, index: int) {
    |g.playerSequence| < |g.sequence| && g.sequence[|g.playerSequence|] == index
  }

  /** `handleCellClick`. */
  function HandleCellClick(g: Game, index: int): (r: Click)
    requires g.roundsPerSize != 0
    ensures r.outcome == Ignored <==> !AcceptsInput(g) || !OnBoard(g, index)
    ensures r.outcome == Ignored ==> r.game == g
    ensures r.outcome != Ignored ==> r.game.playerSequence == g.playerSequence + [index]
    ensures r.outcome != Ignored ==> r.game.sequence == g.sequence
    ensures r.outcome == Mismatch <==> r.outcome != Ignored && !Expected(g, index)
    ensures r.outcome == RoundWon <==>
              r.outcome != Ignored && Expected(g, index) && |g.playerSequence| + 1 == |g.sequence|
    ensures r.outcome == Mismatch ==>
              !r.game.canClick && r.game.score == g.score && r.game.level == g.level
    ensures r.outcome == RoundWon ==>
              && r.game.score == g.score + g.level * 10 && r.game.level == g.level + 1
              && !r.game.canClick
              && r.game.size == CalculateMatrixSize(g.level + 1, g.roundsPerSize)
    ensures r.outcome == Accepted ==> r.game.canClick && r.game.level == g.level && r.game.score == g.score
    ensures r.outcome != RoundWon ==> r.game.size == g.size
    ensures r.outcome != Ignored ==>
              r.game.(playerSequence := g.playerSequence, canClick := g.canClick,
                      score := g.score, level := g.level, size := g.size) == g
  {
    if !AcceptsInput(g) || !OnBoard(g, index) then Click(g, Ignored)
    else
      var clicked := g.(playerSequence := g.playerSequence + [index]);
      var step := |clicked.playerSequence| - 1;
      if step >= |g.sequence| || clicked.playerSequence[step] != g.sequence[step] then
        Click(GameOver(clicked), Mismatch)
      else if |clicked.playerSequence| == |g.sequence| then
        Click(Promote(clicked), RoundWon)
      else
        Click(clicked, Accepted)
  }

  /** A click never shrinks the board and keeps the invariant. */
  lemma ClickKeepsInv(g: Game, index: int)
    requires Inv(g)
    ensures HandleCellClick(g, index).game.size >= g.size
    ensures Inv(HandleCellClick(g, index).game)
  {
    if AcceptsInput(g) && OnBoard(g, index) {
      var clicked := g.(playerSequence := g.playerSequence + [index]);
      if !Expected(g, index) {
        assert HandleCellClick(g, index).game == GameOver(clicked);
      } else if |clicked.playerSequence| == |g.sequence| {
        assert HandleCellClick(g, index).game == Promote(clicked);
        PromoteKeepsInv(clicked);
      } else {
        AcceptKeepsInv(g, index);
      }
    }
  }

  lemma PromoteKeepsInv(c: Game)
    requires c.level >= 1 && c.roundsPerSize >= 1 && c.score >= 0
    requires c.size == CalculateMatrixSize(c.level, c.roundsPerSize)
    requires forall i :: 0 <= i < |c.sequence| ==> 0 <= c.sequence[i] < c.size * c.size
    requires !c.isDisplaying
    ensures Promote(c).size >= c.size && Inv(Promote(c))
  {
    SizeMonotone(c.level, c.level + 1, c.roundsPerSize);
    SizeInRange(c.level, c.roundsPerSize);
    var p := Promote(c);
    SquareMono(c.size, p.size);
  }

  lemma AcceptKeepsInv(g: Game, index: int)
    requires Inv(g) && AcceptsInput(g) && OnBoard(g, index) && Expected(g, index)
    requires |g.playerSequence| + 1 < |g.sequence|
    ensures Inv(HandleCellClick(g, index).game)
  {
    var clicked := g.(playerSequence := g.playerSequence + [index]);
    assert HandleCellClick(g, index).game == clicked;
    assert clicked.playerSequence == g.sequence[..|clicked.playerSequence|];
  }

  lemma SquareMono(a: int, b: int)
    requires 0 <= a <= b
    ensures a * a <= b * b
  {
    MulMono(a, b, a);
    MulMono(a, b, b);
  }

  /** Clicks a list of cells one after the other. */
  function ClickAll(g: Game, cells: seq<int>): Game
    requires g.roundsPerSize != 0
    decreases |cells|
  {
    if cells == [] then g
    else
      var c := HandleCellClick(g, cells[0]);
      assert c.game.roundsPerSize == g.roundsPerSize;
      ClickAll(c.game, cells[1..])
  }

  lemma {:induction false} ReplayRest(g: Game)
    requires Inv(g) && AcceptsInput(g)
    ensures ClickAll(g, g.sequence[|g.playerSequence|..])
            == Promote(g.(playerSequence := g.sequence))
    decreases |g.sequence| - |g.playerSequence|
  {
    var k := |g.playerSequence|;
    var rest := g.sequence[k..];
    var c := HandleCellClick(g, rest[0]);
    assert Expected(g, rest[0]);
    assert c.game.playerSequence == g.sequence[..k + 1];
    if k + 1 == |g.sequence| {
      assert g.sequence[..k + 1] == g.sequence;
      assert rest[1..] == [];
    } else {
      assert rest[1..] == g.sequence[k + 1..];
      ReplayRest(c.game);
    }
  }

  /** Repeating the whole sequence correctly after playback wins the round:
      the sequence is kept, the level goes up by one and the old level times
      ten is scored. */
  lemma CorrectReplayWins(g: Game)
    requires Inv(g) && AcceptsInput(g) && g.playerSequence == []
    ensures var w := ClickAll(g, g.sequence);
            && w.sequence == g.sequence && w.playerSequence == g.sequence
            && w.level == g.level + 1 && w.score == g.score + g.level * 10
            && !w.canClick && w.size >= g.size
  {
    assert g.sequence[0..] == g.sequence;
    ReplayRest(g);
    SizeMonotone(g.level, g.level + 1, g.roundsPerSize);
  }

  /** A wrong cell ends the game, and the restart that follows empties the
      sequence and restores the score and the configured level. */
  lemma WrongClickRestarts(g: Game, index: int, levelInput: Option<int>, roundsInput: Option<int>)
    requires Inv(g) && AcceptsInput(g) && OnBoard(g, index) && !Expected(g, index)
    ensures var c := HandleCellClick(g, index);
            && c.outcome == Mismatch && !c.game.canClick
            && var n := Init(c.game, levelInput, roundsInput);
               n.sequence == [] && n.score == 0 && n.level == ReadSetting(levelInput, DefaultLevel)
  {
  }

  /** Inputs of the engine: user actions and the callbacks its timers fire. */
  datatype Event =
    | StartPressed(u: real)      // start button, or the timer after a won round
    | PlaybackFinished           // the playback coroutine resumes for the last time
    | CellClicked(index: int)
    | Restarted(levelInput: Option<int>, roundsInput: Option<int>)     // timer after a lost round
    | SettingsEdited(levelInput: Option<int>, roundsInput: Option<int>)

  predicate RandomInRange(e: Event) {
    e.StartPressed? ==> 0.0 <= e.u < 1.0
  }

  /** One event. The playback continuation exists only while displaying, so
      a `PlaybackFinished` in any other state stands for no event. */
  function Step(g: Game, e: Event): (r: Game)
    requires RandomInRange(e) && g.roundsPerSize != 0
    ensures e.CellClicked? ==> r == HandleCellClick(g, e.index).game
  {
    match e
    case StartPressed(u) => StartNextBatch(g, u)
    case PlaybackFinished => if g.isDisplaying then FinishPlayback(g) else g
    case CellClicked(index) => HandleCellClick(g, index).game
    case Restarted(l, n) => Init(g, l, n)
    case SettingsEdited(l, n) => SettingsChanged(g, l, n)
  }

  predicate SaneEvent(e: Event) {
    && RandomInRange(e)
    && (e.Restarted? || e.SettingsEdited? ==> SaneSettings(e.levelInput, e.roundsInput))
  }

  /** A whole session: the events in order. */
  function Run(g: Game, es: seq<Event>): Game
    requires Inv(g)
    requires forall i :: 0 <= i < |es| ==> SaneEvent(es[i])
    decreases |es|
  {
    if es == [] then g
    else
      assert SaneEvent(es[0]);
      var n := Step(g, es[0]);
      StepKeepsInv(g, es[0]);
      Run(n, es[1..])
  }

  /** Every event keeps the invariant. */
  lemma StepKeepsInv(g: Game, e: Event)
    requires Inv(g) && SaneEvent(e)
    ensures Inv(Step(g, e))
  {
    if e.CellClicked? {
      ClickKeepsInv(g, e.index);
    }
  }

  /** The invariant holds after any session of sane events. */
  lemma {:induction false} RunKeepsInv(g: Game, es: seq<Event>)
    requires Inv(g)
    requires forall i :: 0 <= i < |es| ==> SaneEvent(es[i])
    ensures Inv(Run(g, es))
    decreases |es|
  {
    if es != [] {
      assert SaneEvent(es[0]);
      StepKeepsInv(g, es[0]);
      RunKeepsInv(Step(g, es[0]), es[1..]);
    }
  }

  /** Within one game (a sequence under way and no restart), the board never
      shrinks, the level and score never fall, and the sequence only grows at
      its end. */
  lemma {:induction false} GameOnlyMovesForward(g: Game, es: seq<Event>)
    requires Inv(g) && |g.sequence| > 0
    requires forall i :: 0 <= i < |es| ==> SaneEvent(es[i]) && !es[i].Restarted?
    ensures var f := Run(g, es);
            && f.size >= g.size && f.level >= g.level && f.score >= g.score
            && |f.sequence| >= |g.sequence| && f.sequence[..|g.sequence|] == g.sequence
    decreases |es|
  {
    if es != [] {
      assert SaneEvent(es[0]);
      var n := Step(g, es[0]);
      StepKeepsInv(g, es[0]);
      if es[0].CellClicked? {
        ClickKeepsInv(g, es[0].index);
      }
      assert n.size >= g.size && n.level >= g.level && n.score >= g.score;
      assert |n.sequence| >= |g.sequence| && n.sequence[..|g.sequence|] == g.sequence;
      GameOnlyMovesForward(n, es[1..]);
      var f := Run(n, es[1..]);
      assert f.sequence[..|g.sequence|] == f.sequence[..|n.sequence|][..|g.sequence|];
    }
  }
}

=== FILE: sampling.dfy ===
/** The option sampler shared by the flag and capital quizzes: start from the
    correct answer, keep drawing random pool entries and keep those whose key
    is new until four options are collected, then shuffle. Randomness is
    supplied by the caller: `draws` are the successive random pool indices and
    `swaps` the exchanges the random-comparator sort ends up performing. */
module Sampling {
  import opened Wrappers

  /** Every quiz round offers this many options. */
  const OptionCount := 4

  /** No two elements share a key. */
  predicate DistinctBy<T, K(==)>(xs: seq<T>, key: T -> K) {
    forall i, j :: 0 <= i < j < |xs| ==> key(xs[i]) != key(xs[j])
  }

  function Keys<T, K>(xs: seq<T>, key: T -> K): set<K> {
    set i | 0 <= i < |xs| :: key(xs[i])
  }

  /** Whether some element carries key `k`: the `find`/`includes` test. */
  function HasKey<T, K(==)>(xs: seq<T>, key: T -> K, k: K): (b: bool)
    ensures b <==> k in Keys(xs, key)
  {
    if xs == [] then false
    else key(xs[|xs| - 1]) == k || HasKey(xs[..|xs| - 1], key, k)
  }

  lemma KeysAppend<T, K>(xs: seq<T>, x: T, key: T -> K)
    ensures Keys(xs + [x], key) == Keys(xs, key) + {key(x)}
  {
    var ys := xs + [x];
    assert ys[|xs|] == x;
    forall k | k in Keys(xs, key)
      ensures k in Keys(ys, key)
    {
      var i :| 0 <= i < |xs| && key(xs[i]) == k;
      assert ys[i] == xs[i];
    }
  }

  /** A key-distinct sequence has exactly as many keys as elements. */
  lemma {:induction false} DistinctKeysCount<T, K>(xs: seq<T>, key: T -> K)
    requires DistinctBy(xs, key)
    ensures |Keys(xs, key)| == |xs|
  {
    if xs != [] {
      var init := xs[..|xs| - 1];
      assert xs == init + [xs[|xs| - 1]];
      DistinctKeysCount(init, key);
      KeysAppend(init, xs[|xs| - 1], key);
    }
  }

  predicate ValidDraws(draws: seq<nat>, poolSize: nat) {
    forall i :: 0 <= i < |draws| ==> draws[i] < poolSize
  }

  /** The pool entries the random indices select, in draw order. */
  function Picks<T>(pool: seq<T>, draws: seq<nat>): (r: seq<T>)
    requires ValidDraws(draws, |pool|)
    ensures |r| == |draws|
    ensures forall i :: 0 <= i < |draws| ==> r[i] == pool[draws[i]]
  {
    seq(|draws|, i requires 0 <= i < |draws| => pool[draws[i]])
  }

  /** The rejection loop. It succeeds exactly when `first` and the drawn
      entries together carry at least four distinct keys; `None` stands for
      the source still drawing when the supplied randomness runs out, which
      for a pool with fewer than four keys is forever. */
  method DrawDistinct<T, K(==)>(pool: seq<T>, first: T, key: T -> K, draws: seq<nat>)
    returns (r: Option<seq<T>>)
    requires ValidDraws(draws, |pool|)
    ensures r.Some? <==> |Keys([first] + Picks(pool, draws), key)| >= OptionCount
    ensures r.Some? ==> |r.value| == OptionCount && r.value[0] == first
    ensures r.Some? ==> DistinctBy(r.value, key)
    ensures r.Some? ==> forall i :: 1 <= i < |r.value| ==> r.value[i] in pool
    ensures r.Some? ==> |Keys([first] + pool, key)| >= OptionCount
  {
    var opts := [first];
    var i := 0;
    assert [first] + Picks(pool, draws[..0]) == opts;
    while |opts| < OptionCount && i < |draws|
      invariant 0 <= i <= |draws|
      invariant 1 <= |opts| <= OptionCount && opts[0] == first
      invariant DistinctBy(opts, key)
      invariant forall j :: 1 <= j < |opts| ==> opts[j] in pool
      invariant Keys(opts, key) == Keys([first] + Picks(pool, draws[..i]), key)
    {
      var cand := pool[draws[i]];
      assert [first] + Picks(pool, draws[..i + 1]) == [first] + Picks(pool, draws[..i]) + [cand];
      KeysAppend([first] + Picks(pool, draws[..i]), cand, key);
      if !HasKey(opts, key, key(cand)) {
        KeysAppend(opts, cand, key);
        opts := opts + [cand];
      }
      i := i + 1;
    }
    DistinctKeysCount(opts, key);
    if |opts| == OptionCount {
      KeysGrow([first] + Picks(pool, draws[..i]), [first] + Picks(pool, draws), key);
      PicksKeysFromPool(pool, first, draws, key);
      r := Some(opts);
    } else {
      assert draws[..i] == draws;
      r := None;
    }
  }

  /** A sequence's keys are among the keys of any sequence it is a prefix of,
      so there are no more of them. */
  lemma KeysGrow<T, K>(xs: seq<T>, ys: seq<T>, key: T -> K)
    requires |xs| <= |ys| && xs == ys[..|xs|]
    ensures |Keys(xs, key)| <= |Keys(ys, key)|
  {
    assert Keys(xs, key) <= Keys(ys, key) by {
      forall k | k in Keys(xs, key)
        ensures k in Keys(ys, key)
      {
        var i :| 0 <= i < |xs| && key(xs[i]) == k;
        assert ys[i] == xs[i];
      }
    }
    SubsetCard(Keys(xs, key), Keys(ys, key));
  }

  /** Drawing cannot produce keys the pool does not have. */
  lemma PicksKeysFromPool<T, K>(pool: seq<T>, first: T, draws: seq<nat>, key: T -> K)
    requires ValidDraws(draws, |pool|)
    ensures |Keys([first] + Picks(pool, draws), key)| <= |Keys([first] + pool, key)|
  {
    var xs, ys := [first] + Picks(pool, draws), [first] + pool;
    assert Keys(xs, key) <= Keys(ys, key) by {
      forall k | k in Keys(xs, key)
        ensures k in Keys(ys, key)
      {
        var i :| 0 <= i < |xs| && key(xs[i]) == k;
        if i == 0 {
          assert ys[0] == first;
        } else {
          assert ys[draws[i - 1] + 1] == xs[i];
        }
      }
    }
    SubsetCard(Keys(xs, key), Keys(ys, key));
  }

  lemma {:induction false} SubsetCard<K>(a: set<K>, b: set<K>)
    requires a <= b
    ensures |a| <= |b|
    decreases a
  {
    if a != {} {
      var x :| x in a;
      SubsetCard(a - {x}, b - {x});
    }
  }

  predicate ValidSwaps(swaps: seq<(nat, nat)>, n: nat) {
    forall k :: 0 <= k < |swaps| ==> swaps[k].0 < n && swaps[k].1 < n
  }

  /** Exchanges the elements at `i` and `j`. */
  function Swap<T>(xs: seq<T>, i: nat, j: nat): (r: seq<T>)
    requires i < |xs| && j < |xs|
    ensures |r| == |xs| && multiset(r) == multiset(xs)
    ensures r[i] == xs[j] && r[j] == xs[i]
    ensures forall k :: 0 <= k < |xs| && k != i && k != j ==> r[k] == xs[k]
  {
    xs[i := xs[j]][j := xs[i]]
  }

  /** `sort(() => Math.random() - 0.5)`: some rearrangement of the input,
      given as the exchanges the sort performs. */
  function Shuffle<T>(xs: seq<T>, swaps: seq<(nat, nat)>): (r: seq<T>)
    requires ValidSwaps(swaps, |xs|)
    ensures |r| == |xs| && multiset(r) == multiset(xs)
    decreases |swaps|
  {
    if swaps == [] then xs
    else Shuffle(Swap(xs, swaps[0].0, swaps[0].1), swaps[1..])
  }

  /** Rearranging never makes two elements share a key. */
  lemma {:induction false} ShuffleKeepsDistinct<T, K>(xs: seq<T>, swaps: seq<(nat, nat)>, key: T -> K)
    requires ValidSwaps(swaps, |xs|)
    requires DistinctBy(xs, key)
    ensures DistinctBy(Shuffle(xs, swaps), key)
    decreases |swaps|
  {
    if swaps != [] {
      var ys := Swap(xs, swaps[0].0, swaps[0].1);
      forall a, b | 0 <= a < b < |ys|
        ensures key(ys[a]) != key(ys[b])
      {
        var i, j := swaps[0].0, swaps[0].1;
        var a' := if a == i then j else if a == j then i else a;
        var b' := if b == i then j else if b == j then i else b;
        assert ys[a] == xs[a'] && ys[b] == xs[b'] && a' != b';
        if a' > b' {
          assert key(xs[b']) != key(xs[a']);
        }
      }
      ShuffleKeepsDistinct(ys, swaps[1..], key);
    }
  }
}

=== FILE: text.dfy ===
/** The JavaScript string primitives the games rely on: `trim`, `toLowerCase`,
    `toUpperCase`, and the accent stripping `normalize("NFD")` followed by the
    removal of combining marks U+0300..U+036F. Case mapping and decomposition are
    modelled for Basic Latin and Latin-1, the alphabet the country names use. */
module Text {

  /** The characters `String.prototype.trim` removes: ECMAScript WhiteSpace
      (including every space separator of category Zs) and LineTerminator. */
  predicate IsWhiteSpace(c: char) {
    || c == '\t' || c == '\n' || c == '\U{000B}' || c == '\U{000C}' || c == '\r'
    || c == ' ' || c == '\U{00A0}' || c == '\U{1680}'
    || ('\U{2000}' <= c <= '\U{200A}')
    || c == '\U{2028}' || c == '\U{2029}' || c == '\U{202F}' || c == '\U{205F}'
    || c == '\U{3000}' || c == '\U{FEFF}'
  }

  predicate AllWhiteSpace(s: string) {
    forall i :: 0 <= i < |s| ==> IsWhiteSpace(s[i])
  }

  /** Neither the first nor the last character is white space. */
  predicate NoEdgeSpace(s: string) {
    s == [] || (!IsWhiteSpace(s[0]) && !IsWhiteSpace(s[|s| - 1]))
  }

  /** Drops the leading white space: the result is a suffix of `s` whose
      removed prefix is all white space and which does not start with any. */
  function TrimStart(s: string): (r: string)
    ensures |r| <= |s| && r == s[|s| - |r|..]
    ensures AllWhiteSpace(s[..|s| - |r|])
    ensures r == [] || !IsWhiteSpace(r[0])
  {
    if |s| > 0 && IsWhiteSpace(s[0]) then
      var r := TrimStart(s[1..]);
      assert s[..|s| - |r|] == [s[0]] + s[1..][..|s| - 1 - |r|];
      r
    else s
  }

  /** Drops the trailing white space: the result is a prefix of `s` whose
      removed suffix is all white space and which does not end with any. */
  function TrimEnd(s: string): (r: string)
    ensures |r| <= |s| && r == s[..|r|]
    ensures AllWhiteSpace(s[|r|..])
    ensures r == [] || !IsWhiteSpace(r[|r| - 1])
  {
    if |s| > 0 && IsWhiteSpace(s[|s| - 1]) then
      var r := TrimEnd(s[..|s| - 1]);
      assert s[|r|..] == s[..|s| - 1][|r|..] + [s[|s| - 1]];
      r
    else s
  }

  /** `s.trim()`: no white space is left at either end; `TrimCutsOnlyEdgeSpace`
      states that only the white space at the two ends is removed. */
  function Trim(s: string): (r: string)
    ensures NoEdgeSpace(r)
    ensures |r| <= |s|
  {
    TrimEnd(TrimStart(s))
  }

  /** Trimming cuts white space from the two ends of `s` and nothing else:
      the result is the slice of `s` between an all-white-space prefix and an
      all-white-space suffix. */
  lemma TrimCutsOnlyEdgeSpace(s: string)
    ensures exists a, b :: 0 <= a <= b <= |s| && Trim(s) == s[a..b]
                           && AllWhiteSpace(s[..a]) && AllWhiteSpace(s[b..])
  {
    var t := TrimStart(s);
    EdgeSpaceSlice(s, t, TrimEnd(t));
  }

  /** A prefix `r` of a suffix `t` of `s`, where only white space precedes `t`
      in `s` and only white space follows `r` in `t`, is a slice of `s` with
      only white space around it. */
  lemma EdgeSpaceSlice(s: string, t: string, r: string)
    requires |t| <= |s| && t == s[|s| - |t|..] && AllWhiteSpace(s[..|s| - |t|])
    requires |r| <= |t| && r == t[..|r|] && AllWhiteSpace(t[|r|..])
    ensures exists a, b :: 0 <= a <= b <= |s| && r == s[a..b]
                           && AllWhiteSpace(s[..a]) && AllWhiteSpace(s[b..])
  {
    var a, b := |s| - |t|, |s| - |t| + |r|;
    assert r == s[a..b];
    assert s[b..] == t[|r|..];
  }

  lemma {:induction false} TrimStartPadded(p: string, x: string)
    requires AllWhiteSpace(p)
    requires x == [] || !IsWhiteSpace(x[0])
    ensures TrimStart(p + x) == x
    decreases |p|
  {
    if p == [] {
      assert p + x == x;
    } else {
      assert (p + x)[1..] == p[1..] + x;
      TrimStartPadded(p[1..], x);
    }
  }

  lemma {:induction false} TrimEndPadded(x: string, q: string)
    requires AllWhiteSpace(q)
    requires x == [] || !IsWhiteSpace(x[|x| - 1])
    ensures TrimEnd(x + q) == x
    decreases |q|
  {
    if q == [] {
      assert x + q == x;
    } else {
      assert (x + q)[..|x + q| - 1] == x + q[..|q| - 1];
      TrimEndPadded(x, q[..|q| - 1]);
    }
  }

  /** Trimming recovers exactly the text inside any white-space padding. */
  lemma TrimPadded(p: string, x: string, q: string)
    requires AllWhiteSpace(p) && AllWhiteSpace(q) && NoEdgeSpace(x)
    ensures Trim(p + x + q) == x
  {
    assert p + x + q == p + (x + q);
    if x == [] {
      assert x + q == q;
      TrimStartPadded(p + q, []);
      assert p + q + [] == p + q;
      TrimEndPadded([], []);
    } else {
      assert (x + q)[0] == x[0];
      TrimStartPadded(p, x + q);
      TrimEndPadded(x, q);
    }
  }

  /** Trimming twice is trimming once. */
  lemma TrimIdempotent(s: string)
    ensures Trim(Trim(s)) == Trim(s)
  {
    var t := Trim(s);
    assert [] + t + [] == t;
    TrimPadded([], t, []);
  }

  /** `toLowerCase` on one character: A..Z and the Latin-1 capitals
      U+00C0..U+00DE (except the sign U+00D7) move down by 0x20. */
  function LowerChar(c: char): char {
    if 'A' <= c <= 'Z' || ('À' <= c <= 'Þ' && c != '×')
    then (c as int + 0x20) as char
    else c
  }

  /** `toUpperCase` on one character: a..z and the Latin-1 small letters
      U+00E0..U+00FE (except the sign U+00F7) move up by 0x20. */
  function UpperChar(c: char): char {
    if 'a' <= c <= 'z' || ('à' <= c <= 'þ' && c != '÷')
    then (c as int - 0x20) as char
    else c
  }

  function Lower(s: string): (r: string)
    ensures |r| == |s|
    ensures forall i :: 0 <= i < |s| ==> r[i] == LowerChar(s[i])
  {
    seq(|s|, i requires 0 <= i < |s| => LowerChar(s[i]))
  }

  function Upper(s: string): (r: string)
    ensures |r| == |s|
    ensures forall i :: 0 <= i < |s| ==> r[i] == UpperChar(s[i])
  {
    seq(|s|, i requires 0 <= i < |s| => UpperChar(s[i]))
  }

  /** Case folding forgets whether a letter was upper-cased first, so comparing
      lower-cased strings is insensitive to either case mapping. */
  lemma LowerAfterUpper(s: string)
    ensures Lower(Upper(s)) == Lower(s)
  {
  }

  /** Upper-casing never turns white space into something else or back. */
  lemma UpperKeepsWhiteSpace(c: char)
    ensures IsWhiteSpace(UpperChar(c)) <==> IsWhiteSpace(c)
  {
  }

  /** `normalize("NFD")` of one character with the combining marks
      U+0300..U+036F removed: a precomposed Latin-1 letter loses its accent,
      a lone combining mark vanishes, every other character is kept. */
  function StripAccents(c: char): (r: string)
    ensures |r| <= 1
    ensures r == [] <==> '\U{0300}' <= c <= '\U{036F}'
    ensures !('\U{0300}' <= c <= '\U{036F}') && !('À' <= c <= 'ÿ') ==> r == [c]
    ensures |r| == 1 && r[0] != c ==> 'A' <= r[0] <= 'Z' || 'a' <= r[0] <= 'z'
  {
    if '\U{0300}' <= c <= '\U{036F}' then []
    else if 'À' <= c <= 'Å' then "A"
    else if c == 'Ç' then "C"
    else if 'È' <= c <= 'Ë' then "E"
    else if 'Ì' <= c <= 'Ï' then "I"
    else if c == 'Ñ' then "N"
    else if 'Ò' <= c <= 'Ö' then "O"
    else if 'Ù' <= c <= 'Ü' then "U"
    else if c == 'Ý' then "Y"
    else if 'à' <= c <= 'å' then "a"
    else if c == 'ç' then "c"
    else if 'è' <= c <= 'ë' then "e"
    else if 'ì' <= c <= 'ï' then "i"
    else if c == 'ñ' then "n"
    else if 'ò' <= c <= 'ö' then "o"
    else if 'ù' <= c <= 'ü' then "u"
    else if c == 'ý' || c == 'ÿ' then "y"
    else [c]
  }

  /** Stripping is idempotent: what remains of a character carries no accent. */
  lemma StripAccentsIdempotent(c: char)
    ensures var r := StripAccents(c); r == [] || StripAccents(r[0]) == r
  {
  }
}

=== FILE: wrappers.dfy ===
/** Optional values, used where the source returns `undefined` or keeps
    looping until a random source supplies what it needs. */
module Wrappers {

  datatype Option<+T> = None | Some(value: T)
}
